=== FILE: README.md ===
# Database profiler and custom-report endpoint, modelled in Dafny

This project models the two pieces of logic in a small Python repository that
talks to a PostgreSQL database.

- `Database.__init__` (database_object.py) builds a snapshot of the `public`
  schema. It lists the tables and, for each table, the column names. It then
  gives every catalog triple (table, column, declared type) a profile. Text
  columns get their distinct values, number columns get avg/min/max, and any
  other column gets the marker `'No Summary Available'`. A failing profile
  query also becomes that marker instead of stopping the build.
- `custom_report` and its nested `func` (fastapi_report_building.py) first
  look up the account name. Then they load a stored report query, put the
  account id in place of `:account_id`, run it, and rename the result columns
  by position. The spreadsheet is exported only when the requesting email
  belongs to one of the account's users. Column widths follow a fixed rule.
  The nested error handlers pick exactly one of three messages.

The SQL engine is an abstract oracle, `Sql.Engine = string -> Outcome`. It
maps query text to either `Fetched(Frame)` (column names and rows) or
`Raised`. Other effects are parameters of `Report.Env`: the file system
(report path to file contents) and whether writing a workbook succeeds.
`date.today()` is passed in as text. Python's `str.format`, `str.replace`,
`str(int)` and `int(str)` are modelled in `PyText`. `str.format` uses a
tokenised template of literal pieces and numbered fields. `str.replace` has
`str.split`/`str.join` as its reference definition.

Files: `base.dfy` (Option/Result), `pytext.dfy` (Python string operations),
`sql.dfy` (cell values, result sets, the engine), `database.dfy` (module
`Database`), `report.dfy` (module `Report`).

In these places the model follows the code, not what one might expect of
such a profiler:

- Type classification is exact, case-sensitive list membership, not a
  case-insensitive match (`Database.ClassifyIsCaseSensitive`).
- `tables` is a list in catalog order, not a set. Duplicates are kept.
- An unavailable profile is the bare string `'No Summary Available'`. No
  reason is recorded.
- A failing `select * from <table> limit 1` probe is not caught. It aborts
  the whole construction (`BuildError.ProbeFailed`).
- The constructor never closes its connection.

Three oddities of fastapi_report_building.py are kept as written:

- The file served (`{Account} Report {date}.xlsx`, lines 62-63) is not the
  file written (`{acc_name} {Report} Report {date}.xlsx`, lines 51-52).
  `Report.ServedIsWrittenOnlyByCoincidence` proves that the two paths are
  equal exactly when the account text equals the account name, a blank and
  the report name.
- When two columns of the report result carry the same name (a join such
  as `select a.id, u.id …` does this), `df[col]` at line 56 selects a
  DataFrame. Line 57 then raises, and the inner handler replies
  "Something went wrong…" even for a listed email
  (`Report.LabelsRepeatIffNamesRepeat`, `Report.Func`).
- `conn.close()` at line 72 comes after `return` and never runs, so the model
  closes nothing.

Python line breaks in triple-quoted SQL literals are `\n`, even though the
source files are stored with CRLF line endings. The indentation inside the
literals is kept: 92 spaces in the profile queries and 51 in the
columns-catalog query.

## Model

| member | source | states |
|---|---|---|
| Database.Classify | database_object.py:71-89 | Every declared type gets exactly one category by exact string equality. Only `character varying` and `text` are textual. Only `bigint`, `double precision`, `integer` and `numeric` are numeric. Anything else is unclassified. |
| Database.ClassifyIsCaseSensitive | database_object.py:71-78 | Upper-case spellings such as `TEXT` or `Integer` are not recognised. |
| Database.ProfileQuery | database_object.py:71-89 | A triple issues no profiling query exactly when its type is unclassified. |
| Database.DistinctQueryShape | database_object.py:73-75 | The text query is `select distinct <column> … from <table>`: the column name first, then the table name. |
| Database.AggregateQueryShape | database_object.py:80-85 | The number query puts the same column name in avg, min and max, and the table name after `from`. |
| Database.ProfileOf | database_object.py:70-89 | A text type yields the distinct-values result or the marker, never avg/min/max. A number type yields the avg/min/max result or the marker. Any other type yields the marker. The marker appears exactly when there is no query or the query raises. A result payload is exactly the engine's answer. |
| Database.ProfileIsLocal | database_object.py:72-77 | A triple's profile depends only on the engine's answer to that triple's own query. |
| Database.ProfileMap | database_object.py:69-91 | After the loop, the profile map's keys are exactly the catalog's triples. Each key's value is that triple's own profile. |
| Database.FailureIsIsolated | database_object.py:72-87 | When one triple's query fails, that entry becomes the marker. Every entry with a different query keeps its profile, and the key set is unchanged. |
| Database.TableNames | database_object.py:59-60 | `tables` keeps the catalog's row order and takes the first field of each row. It is undefined (IndexError) exactly when some row is empty. |
| Database.ColumnsPerTable | database_object.py:62-66 | When every probe succeeds, the keys are exactly the listed tables. Each key maps to the column names the engine reports for that table's probe. Otherwise the first failing table in list order aborts. |
| Database.ProbeQuery | database_object.py:64 | `"select * from {} limit 1".format(table)`, spelled out by ProbeQueryShape. |
| Database.ProbeQueryShape | database_object.py:64 | The probe of a table is `select * from <table> limit 1`. |
| Database.ProfileQueryIsNoCatalogQuery | database_object.py:59-85 | A profiling query is never the tables query, the columns query or any table's probe. |
| Database.CatalogTriples | database_object.py:67-70 | The profile keys are one (table, column, type) triple per catalog row, in row order, taken from the row's three fields. |
| Database.Build | database_object.py:59-91 | Construction succeeds exactly when the two catalog queries are answered, no row of the table listing is empty, and every table probe is answered. Profile queries never matter. On success, the snapshot's tables, its column keys and values (each table's probe header), its profile keys and its profile values are as above. |
| Database.ColumnsPerTableDependsOnProbes | database_object.py:63-65 | Two engines that agree on the probe queries give the same columns map. |
| Database.BuildSurvivesProfileFailure | database_object.py:72-87 | When one profiling query raises, the build succeeds exactly as before, with the same tables, columns and profile keys. That triple's entry is the marker and every entry with a different query is unchanged. |
| Database.BuildIgnoresProfileAnswers | database_object.py:59-91 | Any two engines that agree on the two catalog queries and on the probes of the listed tables agree on whether the build succeeds. When it does, they also agree on its tables, its columns map and its profile key set. When the table listing raises or has an empty row, both builds fail. |
| PyText.Fill | database_object.py:64 | `str.format` with numbered fields: literal text is copied and each field is replaced by its argument. Its partners are the FillConcat/FillCons lemmas and the spelled-out query and path shapes. |
| PyText.FillConcat | database_object.py:64 | `str.format` over a concatenated template is the concatenation of the formatted parts. |
| PyText.FillCons | database_object.py:64 | Formatting proceeds piece by piece from the left. |
| PyText.FillFour | database_object.py:73-75 | A literal/field/literal/field template formats to the four texts in order. |
| PyText.FillSeven | fastapi_report_building.py:51-52 | A literal/field template with three fields and four literals formats to those seven texts in order. |
| PyText.FillFive | fastapi_report_building.py:62-63 | A literal/field template with two fields and three literals formats to those five texts in order. |
| PyText.FillEight | database_object.py:80-85 | An eight-piece alternating template formats to its eight texts in order. |
| PyText.Replace | fastapi_report_building.py:37 | `str.replace`: a left-to-right scan replacing non-overlapping occurrences. Its reference definition is split-then-join (ReplaceIsSplitJoin). |
| PyText.Split | fastapi_report_building.py:37 | `str.split`: the pieces between non-overlapping occurrences, at least one piece. |
| PyText.Join | fastapi_report_building.py:37 | `str.join` of at least one piece. Joining a split with its separator is the identity (SplitJoinRoundTrip). |
| PyText.ReplaceIsSplitJoin | fastapi_report_building.py:37 | `s.replace(p, r)` equals `r.join(s.split(p))`. |
| PyText.ReplaceByItself | fastapi_report_building.py:37 | Replacing a pattern by itself leaves the text unchanged. |
| PyText.SplitJoinRoundTrip | fastapi_report_building.py:37 | `p.join(s.split(p))` gives back `s`. |
| PyText.SplitFirstIsPrefix | fastapi_report_building.py:37 | The first piece of a split is a prefix of the text. |
| PyText.SplitPiecesFree | fastapi_report_building.py:37 | No piece of a split contains the separator. |
| PyText.ReplaceFreeUnchanged | fastapi_report_building.py:37 | A text with no occurrence of the pattern is unchanged by `replace`. |
| PyText.IntText | fastapi_report_building.py:57 | `str(i)` starts with a minus exactly when `i` is negative, followed by at least one decimal digit. It is the text of an integer cell or a position label under `astype(str)` and `str(series.name)`, and the text `int(Account)` at line 34 is parsed back from (ParseIntRoundTrip). |
| PyText.ParseInt | fastapi_report_building.py:34 | `int(s)`: surrounding white space, an optional sign and decimal digits, otherwise a ValueError (`None`). Its partner is ParseIntRoundTrip. |
| PyText.ParseIntRoundTrip | fastapi_report_building.py:34 | `int(str(i)) == i` for every integer `i`. |
| Sql.Show | fastapi_report_building.py:51-57 | `str()` of a driver value: an int in decimal, a text as is, `None` for NULL. It renders the account name in the written path (line 51) and each cell under `astype(str)` (line 57). It also renders the catalog's table, column and type names in database_object.py (lines 60 and 70). |
| Report.ReportSql | fastapi_report_building.py:37 | The SQL run is absent exactly when the report file cannot be read. Otherwise it is the file text cut at every `:account_id` and rejoined with the account text. |
| Report.AccountSubstitution | fastapi_report_building.py:37 | The stored report is cut at every `:account_id`. No piece contains the placeholder. The pieces rejoined with the placeholder give back the text. The SQL run is the pieces joined with the account text. A text with no placeholder is run unchanged. |
| Report.UsersQuery | fastapi_report_building.py:46 | The users query of an account, formatted from its template and spelled out by UsersQueryShape. |
| Report.UsersQueryShape | fastapi_report_building.py:46 | The users query is `select us.email, us.firstname, us.lastname from users us where us.account_id = ` followed by the account text. |
| Report.WrittenPathShape | fastapi_report_building.py:51-52 | The written file is `<excel dir><account name> <report> Report <date>.xlsx`. |
| Report.ServedPathShape | fastapi_report_building.py:62-63 | The served file is `<excel dir><account> Report <date>.xlsx`. |
| Report.CancelAround | fastapi_report_building.py:51-63 | Two texts with the same prefix and suffix are equal exactly when their middles are equal. |
| Report.ServedIsWrittenOnlyByCoincidence | fastapi_report_building.py:51-63 | The served path equals the written path exactly when the account text is the account name, a blank and the report name. |
| Report.RowWidth | fastapi_report_building.py:40 | `pd.DataFrame(rows)` has as many columns as the longest row, and none when there are no rows. |
| Report.InitialLabels | fastapi_report_building.py:40 | A frame built from bare rows labels its columns 0, 1, … in order. |
| Report.RenameOne | fastapi_report_building.py:43 | `df.rename(columns={from: to})` keeps the column count. A column labelled `from` becomes `to`, and every other label is unchanged. |
| Report.RenameFrom | fastapi_report_building.py:41-44 | The remaining iterations of the rename loop keep the column count. RenameFromPositions gives their effect. |
| Report.RenameColumns | fastapi_report_building.py:41-44 | The rename loop keeps the number of columns. Its effect on each column is in RenameColumnsPositions. |
| Report.RenameFromPositions | fastapi_report_building.py:41-44 | Loop invariant of the rename loop: columns before the current index carry their names, and the rest keep their positions. |
| Report.RenameColumnsPositions | fastapi_report_building.py:38-44 | The rename loop keeps the column count and order. Column `k` is named `colnames[k]` when that name exists and keeps label `k` otherwise. |
| Report.RenameColumnsNamesAll | fastapi_report_building.py:38-44 | When every row has as many fields as there are column names, the labels are exactly the column names in order. |
| Report.LabelText | fastapi_report_building.py:57 | `str(series.name)`: a position label in decimal, a name as is. |
| Report.LabelTexts | fastapi_report_building.py:53 | The header row written has one text per label, in column order, each `str()` of that label. |
| Report.LabelsRepeat | fastapi_report_building.py:56-57 | Two columns carry the same label, so `df[col]` selects a DataFrame and the width line raises (see Func). |
| Report.LabelsRepeatIffNamesRepeat | fastapi_report_building.py:38-44 | The frame's labels repeat exactly when two column names given to existing columns are equal. |
| Report.CellText | fastapi_report_building.py:57 | `str()` of one cell under `astype(str)`. The missing cell of a short row shows as `nan`. |
| Report.ColumnTexts | fastapi_report_building.py:57 | `df[col].astype(str)`: one text per row, in row order, each the text of that row's cell in the column. |
| Report.Longest | fastapi_report_building.py:57 | The longest cell text is at least as long as every cell, and some cell has exactly that length. |
| Report.ColumnWidth | fastapi_report_building.py:55-58 | A width is strictly greater than the header length and than every cell's text length. It is one more than the header length or one more than some cell's length. |
| Report.ColumnWidths | fastapi_report_building.py:55-58 | Every column gets a width, in column order. It is strictly greater than its header and each of its cells, and equals one more than the header or one more than some cell, so it is `max(longest cell, header) + 1`. |
| Report.SheetHeader | fastapi_report_building.py:38-53 | The sheet header has one entry per DataFrame column. Column `k` shows cursor column name `k` when there is one, and the position `k` otherwise. |
| Report.ExportOf | fastapi_report_building.py:51-58 | The file is `<excel dir><account name> <report> Report <date>.xlsx`. The workbook has one header and one width per DataFrame column. Header `k` is column name `k`, or `k` itself for a column without a name. It holds the result rows unchanged and uses the report name as sheet name. Every width is `max(longest cell, header) + 1`. |
| Report.ExportHeaderIsColumnNames | fastapi_report_building.py:38-53 | For a cursor's result (uniform, non-empty rows), the sheet's header row is the cursor's column names. |
| Report.EmailListed | fastapi_report_building.py:48-50 | `Email in admin_emails.index`: some user row has the email as its first field. |
| Report.Authorised | fastapi_report_building.py:46-50 | The users query is answered and lists the email. |
| Report.Func | fastapi_report_building.py:35-69 | There is exactly one response: the file or one of three messages. Failing to read or run the report gives "That is not a valid Report…". A failing users query, no users, a failed export, or a listed email with a report whose column labels repeat gives "Something went wrong…". A running report with users who lack the email gives "Beware…", and nothing is written. A workbook is written only for a listed email. A file is served exactly when the written workbook exports successfully and no two column labels are equal. |
| Report.FirstNamed | fastapi_report_building.py:34 | The first row whose id field equals the id is found, and its name field is returned. There is a result exactly when some row matches. |
| Report.AccountName | fastapi_report_building.py:31-34 | The account name exists exactly when the accounts result has rows, `int(Account)` parses and some row has that id. It is the name field of the first such row, as `.iloc[0]` takes it. |
| Report.CustomReport | fastapi_report_building.py:26-70 | The endpoint fails (uncaught) exactly when the accounts query or the account lookup fails. The lookup's fault escapes as is and is never turned into a message. Otherwise the result is `func`'s. |

## Left out

- Connection setup (`psycopg2.connect`, the SSH tunnel, FastAPI and uvicorn) is network plumbing. The model starts after the connection is open, and a failing connect is not modelled.
- `Database.query` is left out: it passes its text to `pd.read_sql` and has no logic of its own. The example calls at module level are usage, not logic.
- Profile payloads (distinct values, avg/min/max) are the engine's result sets, kept opaque. Their numeric contents involve floating point.
- The bijection between `columns_per_table` and the catalog triples, and `min <= avg <= max`, are promises about the engine's data. They do not come from the code, so they are not stated.
- A report statement that returns no result set has no `cursor.description`, so the loop over it raises. The engine oracle reports this as `Raised`.
- Excel writing is one oracle, `Env.exportOk`. It covers the first `to_excel` (with index) that the second write overwrites, the `ExcelWriter`, `set_column` and `writer.close()`. The workbook is modelled as the data handed to the second write. When column labels repeat, the model still records that workbook as written, with the widths it would have had, although the width loop sets only the widths of the columns before the first repeated label, raises at that column, and never reaches `writer.close()`.
- The console `print` at line 61 is left out. It is assumed not to raise for a listed email.
- `Sql.Show`: each cell is rendered by itself. pandas' column-wide type inference (an integer column holding a NULL becomes float) is not modelled.
- `PyText.ParseInt`: models `int()` on surrounding ASCII white space, an optional sign and ASCII digits. Underscore digit separators, non-ASCII digits and non-ASCII white space (such as `'\xa0'`, `'\u3000'` or `'\x85'`), which Python also accepts, are not modelled.
- `PyText.Replace` and `PyText.Split` require a non-empty pattern. The only pattern the code uses is `:account_id`.
- `PyText.Fill` models only numbered fields without format specs or conversions. No template in the code uses anything else.
- Catalog cells are turned into names with `str()`. information_schema returns text, so for real catalogs this is the identity.
- `Report.ColumnWidth` requires a non-empty column. A frame has columns only when it has rows, so an empty column never reaches the width rule. In pandas it would give NaN.
- Database.Build: `columns_per_table` and `column_values_per_table` are Python dicts, which keep insertion order. The model's maps do not. That order is the first occurrence of each key in `tables` and in the catalog rows (`CatalogTriples`), both of which the model keeps as sequences.
- Concurrency and connection lifetime: the code has a single implicit session.

=== FILE: base.dfy ===
/** Failure-carrying wrappers shared by the model. */
module Base {

  /** A value that may be absent. */
  datatype Option<+T> = None | Some(value: T)

  /** Either a computed value or the error that stopped the computation. */
  datatype Result<+T, +E> = Ok(value: T) | Err(error: E)
}

=== FILE: database.dfy ===
/** `Database.__init__`: the schema snapshot (table list, column names per
    table) and the per-column profile built at construction time. */
module Database {
  import opened Base
  import opened PyText
  import opened Sql

  /** One row of the columns catalog: (table_name, column_name, data_type). */
  datatype Triple = Triple(table: string, column: string, dataType: string)

  /** The profiling strategy a declared type selects. */
  datatype Category = Textual | Numeric | Unclassified

  /** The declared types profiled by their distinct values. */
  const TextTypes: seq<string> := ["character varying", "text"]

  /** The declared types profiled by avg/min/max. */
  const NumberTypes: seq<string> := ["bigint", "double precision", "integer", "numeric"]

  /** The marker stored for a column without a summary. */
  const NoSummaryMarker: string := "No Summary Available"

  /** A column profile: the distinct-values result, the avg/min/max result,
      or the marker string. The result sets are the engine's, kept opaque. */
  datatype Profile = Distinct(values: Frame) | Aggregates(summary: Frame) | Unavailable(marker: string)

  /** The classification: exact, case-sensitive membership in the two lists,
      text types checked first. Every string gets exactly one category. */
  function Classify(dataType: string): (c: Category)
    ensures c == Textual <==> (dataType == "character varying" || dataType == "text")
    ensures c == Numeric <==>
              (dataType == "bigint" || dataType == "double precision"
               || dataType == "integer" || dataType == "numeric")
  {
    if dataType in TextTypes then Textual
    else if dataType in NumberTypes then Numeric
    else Unclassified
  }

  /** The match is case-sensitive: an upper-case spelling is not recognised. */
  lemma ClassifyIsCaseSensitive()
    ensures Classify("TEXT") == Unclassified && Classify("Integer") == Unclassified
  {
  }

  // ---------------------------------------------------------------------
  // Generated SQL
  // ---------------------------------------------------------------------

  /** A line break followed by the 92 spaces of indentation that the
      triple-quoted profile queries carry on their continuation lines. */
  const Break92: string := "\n                                                                                            "

  /** A line break followed by the 51 spaces of the columns-catalog query. */
  const Break51: string := "\n                                                   "

  /** The upper-case keyword both catalog queries open with. */
  const SelectUpper: string := "SELECT "

  const TablesQuery: string :=
    SelectUpper + "table_name FROM information_schema.tables WHERE table_schema = 'public'"

  const ColumnsQuery: string :=
    SelectUpper + "table_name, column_name, data_type FROM information_schema.columns " + Break51
    + "WHERE table_schema = 'public' order by table_name, column_name, data_type"

  /** `"select * from {} limit 1".format(table)` */
  const ProbeTemplate: Template := [Lit("select * from "), Field(0), Lit(" limit 1")]

  /** The literal text of `"select distinct {} ... from {}"` around its fields. */
  const DistinctHead: string := "select distinct "
  const DistinctFrom: string := " " + Break92 + "from "

  /** `"select distinct {} ... from {}".format(column, table)` */
  const DistinctTemplate: Template :=
    [Lit(DistinctHead), Field(0), Lit(DistinctFrom), Field(1)]

  /** The literal text of `"select avg({}), min({}), max({}) from {}"` around its fields. */
  const AvgHead: string := "select avg("
  const MinOpen: string := ")," + Break92 + "min("
  const MaxOpen: string := "), " + Break92 + "max("
  const AggregateFrom: string := ") from "

  /** `"select avg({}), min({}), max({}) from {}".format(column, column, column, table)` */
  const AggregateTemplate: Template :=
    [Lit(AvgHead), Field(0), Lit(MinOpen), Field(1), Lit(MaxOpen), Field(2), Lit(AggregateFrom), Field(3)]

  function ProbeQuery(table: string): string {
    Fill(ProbeTemplate, [table])
  }

  /** The probe of a table, spelled out. */
  lemma ProbeQueryShape(table: string)
    ensures ProbeQuery(table) == "select * from " + table + " limit 1"
  {
    FillThree("select * from ", 0, " limit 1", [table]);
  }

  /** The profiling query a triple issues; `None` when its type selects none. */
  function ProfileQuery(t: Triple): (q: Option<string>)
    ensures q.None? <==> Classify(t.dataType) == Unclassified
  {
    var c := Classify(t.dataType);
    if c == Textual then Some(Fill(DistinctTemplate, [t.column, t.table]))
    else if c == Numeric then Some(Fill(AggregateTemplate, [t.column, t.column, t.column, t.table]))
    else None
  }

  /** The text query interpolates the column name and then the table name. */
  lemma DistinctQueryShape(t: Triple)
    requires Classify(t.dataType) == Textual
    ensures ProfileQuery(t) == Some(DistinctHead + t.column + DistinctFrom + t.table)
  {
    FillFour(DistinctHead, 0, DistinctFrom, 1, [t.column, t.table]);
  }

  /** The number query uses the same column name in all three of avg, min
      and max, and then the table name. */
  lemma AggregateQueryShape(t: Triple)
    requires Classify(t.dataType) == Numeric
    ensures ProfileQuery(t) == Some(AvgHead + t.column + MinOpen + t.column + MaxOpen + t.column
                                    + AggregateFrom + t.table)
  {
    FillEight(AvgHead, t.column, MinOpen, t.column, MaxOpen, t.column, AggregateFrom, t.table);
  }

  /** A profiling query is never one of the two catalog queries nor a table
      probe: it starts with a lower-case `select`, where the catalog queries
      start with `SELECT`, and its eighth character is the `d` of `distinct`
      or the `a` of `avg`, where a probe has `*`. */
  lemma ProfileQueryIsNoCatalogQuery(t: Triple)
    requires ProfileQuery(t).Some?
    ensures ProfileQuery(t).value != TablesQuery && ProfileQuery(t).value != ColumnsQuery
    ensures forall table :: ProfileQuery(t).value != ProbeQuery(table)
  {
    var q := ProfileQuery(t).value;
    if Classify(t.dataType) == Textual {
      DistinctQueryShape(t);
      assert q[0] == 's' && q[7] == 'd';
    } else {
      AggregateQueryShape(t);
      assert q[0] == 's' && q[7] == 'a';
    }
    assert TablesQuery[0] == 'S' && ColumnsQuery[0] == 'S';
    forall table ensures q != ProbeQuery(table) {
      ProbeQueryShape(table);
      assert ProbeQuery(table)[7] == '*';
    }
  }

  // ---------------------------------------------------------------------
  // Profiling
  // ---------------------------------------------------------------------

  /** The profile of one triple: the query its category selects, with any
      failure of that query turned into the marker. */
  function ProfileOf(engine: Engine, t: Triple): (p: Profile)
    ensures Classify(t.dataType) == Textual ==> p.Distinct? || p.Unavailable?
    ensures Classify(t.dataType) == Numeric ==> p.Aggregates? || p.Unavailable?
    ensures Classify(t.dataType) == Unclassified ==> p == Unavailable(NoSummaryMarker)
    ensures p.Unavailable? ==> p.marker == NoSummaryMarker
    ensures p.Unavailable? <==> ProfileQuery(t).None? || engine(ProfileQuery(t).value).Raised?
    ensures p.Distinct? ==> p.values == engine(ProfileQuery(t).value).frame
    ensures p.Aggregates? ==> p.summary == engine(ProfileQuery(t).value).frame
  {
    match ProfileQuery(t)
    case None => Unavailable(NoSummaryMarker)
    case Some(q) =>
      match engine(q)
      case Raised => Unavailable(NoSummaryMarker)
      case Fetched(f) => if Classify(t.dataType) == Textual then Distinct(f) else Aggregates(f)
  }

  /** A triple's profile depends on nothing but the engine's answer to that
      triple's own query: how any other column's query fares is irrelevant. */
  lemma ProfileIsLocal(e1: Engine, e2: Engine, t: Triple)
    requires ProfileQuery(t).Some? ==> e1(ProfileQuery(t).value) == e2(ProfileQuery(t).value)
    ensures ProfileOf(e1, t) == ProfileOf(e2, t)
  {
  }

  /** The `col_values` dictionary after the loop over the catalog rows, in
      order; a later row with an equal key overwrites an earlier one. */
  function ProfileMap(engine: Engine, ts: seq<Triple>): (m: map<Triple, Profile>)
    ensures m.Keys == set t | t in ts
    ensures forall t :: t in m ==> m[t] == ProfileOf(engine, t)
    decreases |ts|
  {
    if |ts| == 0 then map[]
    else
      var last := ts[|ts| - 1];
      assert ts == ts[..|ts| - 1] + [last];
      ProfileMap(engine, ts[..|ts| - 1])[last := ProfileOf(engine, last)]
  }

  /** One column's failing query sets only that column's entry to the marker:
      against an engine that differs only in raising on that query, every
      entry whose query differs keeps its profile, and the map still has an
      entry for every triple. */
  lemma FailureIsIsolated(engine: Engine, failing: Engine, ts: seq<Triple>, bad: Triple, u: Triple)
    requires bad in ts && u in ts
    requires ProfileQuery(bad).Some?
    requires failing(ProfileQuery(bad).value).Raised?
    requires forall q :: q != ProfileQuery(bad).value ==> failing(q) == engine(q)
    requires ProfileQuery(u) != ProfileQuery(bad)
    ensures ProfileMap(failing, ts).Keys == ProfileMap(engine, ts).Keys
    ensures ProfileMap(failing, ts)[bad] == Unavailable(NoSummaryMarker)
    ensures ProfileMap(failing, ts)[u] == ProfileMap(engine, ts)[u]
  {
    ProfileIsLocal(failing, engine, u);
  }

  // ---------------------------------------------------------------------
  // Catalog results
  // ---------------------------------------------------------------------

  /** `[t[0] for t in cursor.fetchall()]`, with `str()` applied to the
      catalog's text cells; `None` when some row has no field 0 (IndexError). */
  function TableNames(rows: seq<seq<Value>>): (r: Option<seq<string>>)
    ensures r.Some? <==> forall k :: 0 <= k < |rows| ==> |rows[k]| > 0
    ensures r.Some? ==> |r.value| == |rows|
                        && forall k :: 0 <= k < |rows| ==> r.value[k] == Show(rows[k][0])
    decreases |rows|
  {
    if |rows| == 0 then Some([])
    else if |rows[0]| == 0 then None
    else
      match TableNames(rows[1..])
      case None => None
      case Some(rest) => Some([Show(rows[0][0])] + rest)
  }

  /** The (table_name, column_name, data_type) triple of every catalog row,
      in the catalog's order. */
  function CatalogTriples(rows: seq<seq<Value>>): (ts: seq<Triple>)
    ensures |ts| == |rows|
    ensures forall k :: 0 <= k < |rows| ==>
              ts[k] == Triple(Show(Cell(rows[k], 0)), Show(Cell(rows[k], 1)), Show(Cell(rows[k], 2)))
  {
    seq(|rows|, k requires 0 <= k < |rows| =>
      Triple(Show(Cell(rows[k], 0)), Show(Cell(rows[k], 1)), Show(Cell(rows[k], 2))))
  }

  /** The engine answers the probe query of `table`. */
  predicate ProbeOk(engine: Engine, table: string) {
    engine(ProbeQuery(table)).Fetched?
  }

  /** Every table's probe is answered. */
  predicate AllProbesOk(engine: Engine, tables: seq<string>) {
    forall k :: 0 <= k < |tables| ==> ProbeOk(engine, tables[k])
  }

  /** `columns_per_table`: for each table in order, the column names the
      engine reports for `select * from <table> limit 1`. A failing probe is
      not caught: the first one stops the build (its table is the error). */
  function ColumnsPerTable(engine: Engine, tables: seq<string>): (r: Result<map<string, seq<string>>, string>)
    ensures r.Ok? <==> AllProbesOk(engine, tables)
    ensures r.Ok? ==> r.value.Keys == set t | t in tables
    ensures r.Ok? ==> forall t :: t in r.value ==> r.value[t] == engine(ProbeQuery(t)).frame.header
    ensures r.Err? ==> exists k :: 0 <= k < |tables| && tables[k] == r.error && !ProbeOk(engine, tables[k])
                                   && forall j :: 0 <= j < k ==> ProbeOk(engine, tables[j])
    decreases |tables|
  {
    if |tables| == 0 then Ok(map[])
    else
      var n := |tables| - 1;
      var init := tables[..n];
      assert tables == init + [tables[n]];
      match ColumnsPerTable(engine, init)
      case Err(t) => Err(t)
      case Ok(m) =>
        match engine(ProbeQuery(tables[n]))
        case Raised => Err(tables[n])
        case Fetched(f) => Ok(m[tables[n] := f.header])
  }

  // ---------------------------------------------------------------------
  // The constructor
  // ---------------------------------------------------------------------

  /** The attributes `Database.__init__` sets: `tables`, `columns_per_table`
      and `column_values_per_table`. */
  datatype Snapshot = Snapshot(
    tables: seq<string>,
    columnsPerTable: map<string, seq<string>>,
    profiles: map<Triple, Profile>)

  /** The exceptions that escape the constructor. */
  datatype BuildError =
    | TablesQueryFailed
    | EmptyTableRow
    | ProbeFailed(table: string)
    | ColumnsQueryFailed

  /** The answers the construction cannot do without: the two catalog
      queries and the probe of every listed table. */
  predicate CatalogAnswers(engine: Engine) {
    && engine(TablesQuery).Fetched?
    && TableNames(engine(TablesQuery).frame.rows).Some?
    && AllProbesOk(engine, TableNames(engine(TablesQuery).frame.rows).value)
    && engine(ColumnsQuery).Fetched?
  }

  /** Construction after the connection is open. Profiling never fails the
      build: only the catalog queries and the table probes can. */
  function Build(engine: Engine): (r: Result<Snapshot, BuildError>)
    ensures r.Ok? <==> CatalogAnswers(engine)
    ensures r.Ok? ==> r.value.tables == TableNames(engine(TablesQuery).frame.rows).value
    ensures r.Ok? ==> r.value.columnsPerTable.Keys == set t | t in r.value.tables
    ensures r.Ok? ==> forall t :: t in r.value.columnsPerTable ==>
                        r.value.columnsPerTable[t] == engine(ProbeQuery(t)).frame.header
    ensures r.Ok? ==> r.value.profiles.Keys == set t | t in CatalogTriples(engine(ColumnsQuery).frame.rows)
    ensures r.Ok? ==> forall t :: t in r.value.profiles ==> r.value.profiles[t] == ProfileOf(engine, t)
  {
    match engine(TablesQuery)
    case Raised => Err(TablesQueryFailed)
    case Fetched(f) =>
      match TableNames(f.rows)
      case None => Err(EmptyTableRow)
      case Some(tables) =>
        match ColumnsPerTable(engine, tables)
        case Err(t) => Err(ProbeFailed(t))
        case Ok(columns) =>
          match engine(ColumnsQuery)
          case Raised => Err(ColumnsQueryFailed)
          case Fetched(g) =>
            Ok(Snapshot(tables, columns, ProfileMap(engine, CatalogTriples(g.rows))))
  }

  /** The two engines answer the probe of every listed table alike. */
  predicate ProbesAgree(e1: Engine, e2: Engine, tables: seq<string>) {
    forall k :: 0 <= k < |tables| ==> e1(ProbeQuery(tables[k])) == e2(ProbeQuery(tables[k]))
  }

  /** Two engines that agree on the catalog queries and the table probes
      give the same columns map, whatever they answer elsewhere. */
  lemma {:induction false} ColumnsPerTableDependsOnProbes(e1: Engine, e2: Engine, tables: seq<string>)
    requires ProbesAgree(e1, e2, tables)
    ensures ColumnsPerTable(e1, tables) == ColumnsPerTable(e2, tables)
    decreases |tables|
  {
    if |tables| > 0 {
      ColumnsPerTableDependsOnProbes(e1, e2, tables[..|tables| - 1]);
    }
  }

  /** Best-effort profiling: whether the build completes, and the tables and
      columns it records, do not depend on any profiling query's outcome.
      When the table listing raises or has an empty row, both builds fail. */
  lemma BuildIgnoresProfileAnswers(e1: Engine, e2: Engine)
    requires e1(TablesQuery) == e2(TablesQuery) && e1(ColumnsQuery) == e2(ColumnsQuery)
    requires e1(TablesQuery).Fetched? && TableNames(e1(TablesQuery).frame.rows).Some? ==>
               ProbesAgree(e1, e2, TableNames(e1(TablesQuery).frame.rows).value)
    ensures Build(e1).Ok? <==> Build(e2).Ok?
    ensures Build(e1).Ok? ==>
              && Build(e1).value.tables == Build(e2).value.tables
              && Build(e1).value.columnsPerTable == Build(e2).value.columnsPerTable
              && Build(e1).value.profiles.Keys == Build(e2).value.profiles.Keys
  {
    if e1(TablesQuery).Fetched? && TableNames(e1(TablesQuery).frame.rows).Some? {
      ColumnsPerTableDependsOnProbes(e1, e2, TableNames(e1(TablesQuery).frame.rows).value);
    }
  }

  /** One failing profiling query does not stop the build: against an engine
      that differs only in raising on that query, the build succeeds exactly
      when it did before, with the same tables, columns and profile keys; the
      failing triple's entry is the marker and every entry with a different
      query is unchanged. */
  lemma BuildSurvivesProfileFailure(engine: Engine, failing: Engine, bad: Triple)
    requires ProfileQuery(bad).Some?
    requires failing(ProfileQuery(bad).value).Raised?
    requires forall q :: q != ProfileQuery(bad).value ==> failing(q) == engine(q)
    ensures Build(failing).Ok? <==> Build(engine).Ok?
    ensures Build(engine).Ok? ==>
              && Build(failing).value.tables == Build(engine).value.tables
              && Build(failing).value.columnsPerTable == Build(engine).value.columnsPerTable
              && Build(failing).value.profiles.Keys == Build(engine).value.profiles.Keys
    ensures Build(engine).Ok? && bad in Build(engine).value.profiles ==>
              Build(failing).value.profiles[bad] == Unavailable(NoSummaryMarker)
    ensures forall u :: Build(engine).Ok? && u in Build(engine).value.profiles && ProfileQuery(u) != ProfileQuery(bad) ==>
              Build(failing).value.profiles[u] == Build(engine).value.profiles[u]
  {
    ProfileQueryIsNoCatalogQuery(bad);
    assert failing(TablesQuery) == engine(TablesQuery) && failing(ColumnsQuery) == engine(ColumnsQuery);
    if engine(TablesQuery).Fetched? && TableNames(engine(TablesQuery).frame.rows).Some? {
      var tables := TableNames(engine(TablesQuery).frame.rows).value;
      forall k | 0 <= k < |tables| ensures engine(ProbeQuery(tables[k])) == failing(ProbeQuery(tables[k])) {
        assert ProbeQuery(tables[k]) != ProfileQuery(bad).value;
      }
      BuildIgnoresProfileAnswers(engine, failing);
    }
    forall u | Build(engine).Ok? && u in Build(engine).value.profiles && ProfileQuery(u) != ProfileQuery(bad)
      ensures Build(failing).value.profiles[u] == Build(engine).value.profiles[u]
    {
      ProfileIsLocal(failing, engine, u);
    }
  }
}

=== FILE: pytext.dfy ===
/** The Python string operations that database_object.py and
    fastapi_report_building.py rely on:
    `str.format` with positional fields, `str.replace` (with `str.split` and
    `str.join` as its reference definition), `str(int)` and `int(str)`. */
module PyText {
  import opened Base

  // ---------------------------------------------------------------------
  // str.format
  // ---------------------------------------------------------------------

  /** A format string as `str.format` reads it: literal text and replacement
      fields. An automatically numbered `{}` is the field whose index is its
      position among the fields, exactly as Python numbers it. */
  datatype Piece = Lit(text: string) | Field(index: nat)

  type Template = seq<Piece>

  /** Every field of the template names one of `n` arguments; otherwise
      Python raises `IndexError` while formatting. */
  predicate FieldsWithin(tpl: Template, n: nat) {
    forall k :: 0 <= k < |tpl| ==> (tpl[k].Field? ==> tpl[k].index < n)
  }

  /** The text one piece contributes. */
  function PieceText(p: Piece, args: seq<string>): string
    requires p.Field? ==> p.index < |args|
  {
    match p
    case Lit(t) => t
    case Field(i) => args[i]
  }

  /** `tpl.format(*args)`: literal text is copied, each field is replaced by
      its argument; the arguments themselves are never re-scanned. */
  function Fill(tpl: Template, args: seq<string>): string
    requires FieldsWithin(tpl, |args|)
  {
    if |tpl| == 0 then ""
    else PieceText(tpl[0], args) + Fill(tpl[1..], args)
  }

  /** Formatting distributes over concatenation of templates: each piece of
      a format string contributes its own text, independent of the others. */
  lemma {:induction false} FillConcat(a: Template, b: Template, args: seq<string>)
    requires FieldsWithin(a, |args|) && FieldsWithin(b, |args|)
    ensures FieldsWithin(a + b, |args|)
    ensures Fill(a + b, args) == Fill(a, args) + Fill(b, args)
    decreases |a|
  {
    if |a| == 0 {
      assert a + b == b;
    } else {
      assert (a + b)[1..] == a[1..] + b;
      FillConcat(a[1..], b, args);
    }
  }

  /** Formatting proceeds piece by piece from the left. */
  lemma FillCons(p: Piece, rest: Template, args: seq<string>)
    requires p.Field? ==> p.index < |args|
    requires FieldsWithin(rest, |args|)
    ensures FieldsWithin([p] + rest, |args|)
    ensures Fill([p] + rest, args) == PieceText(p, args) + Fill(rest, args)
  {
    assert ([p] + rest)[1..] == rest;
  }

  /** Concatenation is associative (stated once, used step by step). */
  lemma Assoc(a: string, b: string, c: string)
    ensures a + (b + c) == (a + b) + c
  {
  }

  /** Formatting of a literal followed by a field. */
  lemma FillTwo(l0: string, i0: nat, args: seq<string>)
    requires i0 < |args|
    ensures Fill([Lit(l0), Field(i0)], args) == l0 + args[i0]
  {
    FillCons(Field(i0), [], args);
    FillCons(Lit(l0), [Field(i0)], args);
    assert [Lit(l0)] + [Field(i0)] == [Lit(l0), Field(i0)];
  }

  /** Formatting of two literal/field pairs. */
  lemma FillFour(l0: string, i0: nat, l1: string, i1: nat, args: seq<string>)
    requires i0 < |args| && i1 < |args|
    ensures Fill([Lit(l0), Field(i0), Lit(l1), Field(i1)], args) == l0 + args[i0] + l1 + args[i1]
  {
    var front := [Lit(l0), Field(i0)];
    var back := [Lit(l1), Field(i1)];
    FillTwo(l0, i0, args);
    FillTwo(l1, i1, args);
    FillConcat(front, back, args);
    Assoc(l0 + args[i0], l1, args[i1]);
    assert front + back == [Lit(l0), Field(i0), Lit(l1), Field(i1)];
  }

  /** Formatting of a literal, a field and a literal. */
  lemma FillThree(l0: string, i0: nat, l1: string, args: seq<string>)
    requires i0 < |args|
    ensures Fill([Lit(l0), Field(i0), Lit(l1)], args) == l0 + args[i0] + l1
  {
    var t2 := [Lit(l1)];
    var t1 := [Field(i0)] + t2;
    FillCons(Lit(l1), [], args);
    FillCons(Field(i0), t2, args);
    FillCons(Lit(l0), t1, args);
    Assoc(l0, args[i0], l1);
    assert [Lit(l0)] + t1 == [Lit(l0), Field(i0), Lit(l1)];
  }

  /** Formatting of a literal, field 0, a literal, field 1, a literal,
      field 2 and a literal. */
  lemma FillSeven(l0: string, l1: string, l2: string, l3: string, args: seq<string>)
    requires |args| == 3
    ensures Fill([Lit(l0), Field(0), Lit(l1), Field(1), Lit(l2), Field(2), Lit(l3)], args)
            == l0 + args[0] + l1 + args[1] + l2 + args[2] + l3
  {
    var front := [Lit(l0), Field(0), Lit(l1), Field(1)];
    var back := [Lit(l2), Field(2), Lit(l3)];
    FillFour(l0, 0, l1, 1, args);
    FillThree(l2, 2, l3, args);
    FillConcat(front, back, args);
    var a := l0 + args[0] + l1 + args[1];
    Assoc(a, l2 + args[2], l3);
    Assoc(a, l2, args[2]);
    assert front + back == [Lit(l0), Field(0), Lit(l1), Field(1), Lit(l2), Field(2), Lit(l3)];
  }

  /** Formatting of a literal, field 0, a literal, field 1 and a literal. */
  lemma FillFive(l0: string, l1: string, l2: string, args: seq<string>)
    requires |args| == 2
    ensures Fill([Lit(l0), Field(0), Lit(l1), Field(1), Lit(l2)], args) == l0 + args[0] + l1 + args[1] + l2
  {
    var front := [Lit(l0), Field(0), Lit(l1), Field(1)];
    FillFour(l0, 0, l1, 1, args);
    FillCons(Lit(l2), [], args);
    assert Fill([Lit(l2)], args) == l2;
    FillConcat(front, [Lit(l2)], args);
    assert front + [Lit(l2)] == [Lit(l0), Field(0), Lit(l1), Field(1), Lit(l2)];
  }

  /** Formatting of eight alternating literal/field pieces, for arbitrary text. */
  lemma FillEight(l0: string, x0: string, l1: string, x1: string, l2: string, x2: string, l3: string, x3: string)
    ensures Fill([Lit(l0), Field(0), Lit(l1), Field(1), Lit(l2), Field(2), Lit(l3), Field(3)], [x0, x1, x2, x3])
            == l0 + x0 + l1 + x1 + l2 + x2 + l3 + x3
  {
    var args := [x0, x1, x2, x3];
    var front := [Lit(l0), Field(0), Lit(l1), Field(1)];
    var back := [Lit(l2), Field(2), Lit(l3), Field(3)];
    FillFour(l0, 0, l1, 1, args);
    FillFour(l2, 2, l3, 3, args);
    FillConcat(front, back, args);
    assert front + back == [Lit(l0), Field(0), Lit(l1), Field(1), Lit(l2), Field(2), Lit(l3), Field(3)];
  }

  // ---------------------------------------------------------------------
  // str.replace, str.split, str.join
  // ---------------------------------------------------------------------

  /** `pat` occurs in `s` starting at index `i`. */
  predicate OccursAt(s: string, pat: string, i: int) {
    0 <= i && i + |pat| <= |s| && s[i..i + |pat|] == pat
  }

  /** `pat` occurs nowhere in `s`. */
  predicate Free(s: string, pat: string) {
    forall i | 0 <= i <= |s| :: !OccursAt(s, pat, i)
  }

  /** `s.replace(pat, rep)` for a non-empty pattern: scanning left to right,
      every non-overlapping occurrence of `pat` is replaced by `rep`. */
  function Replace(s: string, pat: string, rep: string): string
    requires |pat| > 0
    decreases |s|
  {
    if |s| < |pat| then s
    else if s[..|pat|] == pat then rep + Replace(s[|pat|..], pat, rep)
    else [s[0]] + Replace(s[1..], pat, rep)
  }

  /** `s.split(sep)` for a non-empty separator: the pieces between the
      non-overlapping occurrences of `sep`, found left to right. */
  function Split(s: string, sep: string): (pieces: seq<string>)
    requires |sep| > 0
    ensures |pieces| >= 1
    decreases |s|
  {
    if |s| < |sep| then [s]
    else if s[..|sep|] == sep then [""] + Split(s[|sep|..], sep)
    else
      var rest := Split(s[1..], sep);
      [[s[0]] + rest[0]] + rest[1..]
  }

  /** `sep.join(pieces)`. */
  function Join(pieces: seq<string>, sep: string): string
    requires |pieces| >= 1
    decreases |pieces|
  {
    if |pieces| == 1 then pieces[0]
    else pieces[0] + sep + Join(pieces[1..], sep)
  }

  /** Replacement is splitting at the pattern and joining with the
      replacement: `s.replace(p, r) == r.join(s.split(p))`. */
  lemma {:induction false} ReplaceIsSplitJoin(s: string, pat: string, rep: string)
    requires |pat| > 0
    ensures Replace(s, pat, rep) == Join(Split(s, pat), rep)
    decreases |s|
  {
    if |s| < |pat| {
    } else if s[..|pat|] == pat {
      ReplaceIsSplitJoin(s[|pat|..], pat, rep);
      var rest := Split(s[|pat|..], pat);
      assert Split(s, pat) == [""] + rest;
      assert ([""] + rest)[1..] == rest;
    } else {
      ReplaceIsSplitJoin(s[1..], pat, rep);
      var rest := Split(s[1..], pat);
      var pieces := [[s[0]] + rest[0]] + rest[1..];
      assert Split(s, pat) == pieces;
      if |rest| == 1 {
        assert Join(pieces, rep) == [s[0]] + rest[0];
      } else {
        assert pieces[1..] == rest[1..];
        calc {
          Join(pieces, rep);
          ([s[0]] + rest[0]) + rep + Join(rest[1..], rep);
          [s[0]] + (rest[0] + rep + Join(rest[1..], rep));
          [s[0]] + Join(rest, rep);
        }
      }
    }
  }

  /** Replacing a pattern by itself changes nothing. */
  lemma {:induction false} ReplaceByItself(s: string, pat: string)
    requires |pat| > 0
    ensures Replace(s, pat, pat) == s
    decreases |s|
  {
    if |s| < |pat| {
    } else if s[..|pat|] == pat {
      ReplaceByItself(s[|pat|..], pat);
      assert s == s[..|pat|] + s[|pat|..];
    } else {
      ReplaceByItself(s[1..], pat);
      assert s == [s[0]] + s[1..];
    }
  }

  /** Splitting and joining with the same separator gives back the text. */
  lemma SplitJoinRoundTrip(s: string, sep: string)
    requires |sep| > 0
    ensures Join(Split(s, sep), sep) == s
  {
    ReplaceIsSplitJoin(s, sep, sep);
    ReplaceByItself(s, sep);
  }

  /** `a` is a prefix of `b`. */
  predicate IsPrefix(a: string, b: string) {
    |a| <= |b| && a == b[..|a|]
  }

  /** Putting the same character in front keeps a prefix a prefix. */
  lemma PrefixCons(c: char, a: string, b: string)
    requires IsPrefix(a, b)
    ensures IsPrefix([c] + a, [c] + b)
  {
    assert ([c] + b)[..|a| + 1] == [c] + b[..|a|];
  }

  /** The first piece of a split is a prefix of the text. */
  lemma {:induction false} SplitFirstIsPrefix(s: string, sep: string)
    requires |sep| > 0
    ensures IsPrefix(Split(s, sep)[0], s)
    decreases |s|
  {
    if |s| < |sep| {
    } else if s[..|sep|] == sep {
    } else {
      SplitFirstIsPrefix(s[1..], sep);
      PrefixCons(s[0], Split(s[1..], sep)[0], s[1..]);
      assert [s[0]] + s[1..] == s;
    }
  }

  /** A character that does not start the separator, followed by a
      separator-free prefix of the rest of the text, is separator-free. */
  lemma ConsFree(s: string, sep: string, r0: string)
    requires |sep| > 0 && |s| >= |sep| && s[..|sep|] != sep
    requires IsPrefix(r0, s[1..]) && Free(r0, sep)
    ensures Free([s[0]] + r0, sep)
  {
    var first := [s[0]] + r0;
    PrefixCons(s[0], r0, s[1..]);
    assert [s[0]] + s[1..] == s;
    forall i | 0 <= i <= |first| ensures !OccursAt(first, sep, i) {
      if i == 0 && |sep| <= |first| {
        assert first[..|sep|] == s[..|sep|];
      } else if i > 0 && i + |sep| <= |first| {
        assert first[i..i + |sep|] == r0[i - 1..i - 1 + |sep|];
        assert !OccursAt(r0, sep, i - 1);
      }
    }
  }

  /** No piece of a split contains the separator: every occurrence of the
      separator in the text is one of the cut points. */
  lemma {:induction false} SplitPiecesFree(s: string, sep: string)
    requires |sep| > 0
    ensures forall k :: 0 <= k < |Split(s, sep)| ==> Free(Split(s, sep)[k], sep)
    decreases |s|
  {
    var pieces := Split(s, sep);
    if |s| < |sep| {
      assert pieces == [s];
      forall i | 0 <= i <= |s| ensures !OccursAt(s, sep, i) {
      }
    } else if s[..|sep|] == sep {
      SplitPiecesFree(s[|sep|..], sep);
      var rest := Split(s[|sep|..], sep);
      assert pieces == [""] + rest;
      forall k | 0 <= k < |pieces| ensures Free(pieces[k], sep) {
        if k == 0 {
          forall i | 0 <= i <= 0 ensures !OccursAt(pieces[k], sep, i) {
          }
        } else {
          assert pieces[k] == rest[k - 1];
        }
      }
    } else {
      SplitPiecesFree(s[1..], sep);
      SplitFirstIsPrefix(s[1..], sep);
      var rest := Split(s[1..], sep);
      assert pieces == [[s[0]] + rest[0]] + rest[1..];
      ConsFree(s, sep, rest[0]);
      forall k | 0 <= k < |pieces| ensures Free(pieces[k], sep) {
        if k > 0 {
          assert pieces[k] == rest[k];
        }
      }
    }
  }

  /** A text in which the pattern never occurs is left unchanged. */
  lemma {:induction false} ReplaceFreeUnchanged(s: string, pat: string, rep: string)
    requires |pat| > 0
    requires Free(s, pat)
    ensures Replace(s, pat, rep) == s
    decreases |s|
  {
    if |s| < |pat| {
    } else {
      assert !OccursAt(s, pat, 0);
      assert s[..|pat|] != pat;
      forall i ensures !OccursAt(s[1..], pat, i) {
        if OccursAt(s[1..], pat, i) {
          assert s[1..][i..i + |pat|] == s[i + 1..i + 1 + |pat|];
          assert OccursAt(s, pat, i + 1);
        }
      }
      ReplaceFreeUnchanged(s[1..], pat, rep);
      assert s == [s[0]] + s[1..];
    }
  }

  // ---------------------------------------------------------------------
  // str(int) and int(str)
  // ---------------------------------------------------------------------

  predicate IsDigit(c: char) {
    '0' <= c <= '9'
  }

  predicate AllDigits(s: string) {
    forall k :: 0 <= k < |s| ==> IsDigit(s[k])
  }

  function DigitChar(d: nat): char
    requires d < 10
  {
    (('0' as int) + d) as char
  }

  function DigitValue(c: char): nat
    requires IsDigit(c)
  {
    (c as int) - ('0' as int)
  }

  /** Decimal text of a natural number, most significant digit first. */
  function NatText(n: nat): (r: string)
    ensures |r| >= 1 && AllDigits(r)
    decreases n
  {
    if n < 10 then [DigitChar(n)]
    else NatText(n / 10) + [DigitChar(n % 10)]
  }

  /** `str(i)` for a Python `int`: a minus sign exactly for a negative
      number, followed by at least one decimal digit. */
  function IntText(i: int): (r: string)
    ensures |r| >= 1 && (r[0] == '-' <==> i < 0)
    ensures i < 0 ==> |r| >= 2 && AllDigits(r[1..])
    ensures i >= 0 ==> AllDigits(r)
  {
    if i < 0 then "-" + NatText(-i) else NatText(i)
  }

  /** The number a run of decimal digits denotes (0 for the empty run). */
  function DigitsValue(s: string): nat
    requires AllDigits(s)
    decreases |s|
  {
    if |s| == 0 then 0
    else DigitsValue(s[..|s| - 1]) * 10 + DigitValue(s[|s| - 1])
  }

  /** The characters `str.strip()` removes from the ends of a numeral. */
  predicate IsSpace(c: char) {
    c == ' ' || c == '\t' || c == '\n' || c == '\r' || c as int == 11 || c as int == 12
  }

  function StripLeft(s: string): string
    decreases |s|
  {
    if |s| > 0 && IsSpace(s[0]) then StripLeft(s[1..]) else s
  }

  function StripRight(s: string): string
    decreases |s|
  {
    if |s| > 0 && IsSpace(s[|s| - 1]) then StripRight(s[..|s| - 1]) else s
  }

  /** `int(s)`: surrounding white space, an optional sign and at least one
      decimal digit; anything else is a `ValueError` (here `None`). */
  function ParseInt(s: string): Option<int> {
    var t := StripRight(StripLeft(s));
    if |t| > 0 && (t[0] == '-' || t[0] == '+') then
      var ds := t[1..];
      if |ds| > 0 && AllDigits(ds) then
        var v: int := if t[0] == '-' then -(DigitsValue(ds) as int) else DigitsValue(ds);
        Some(v)
      else None
    else if |t| > 0 && AllDigits(t) then Some(DigitsValue(t))
    else None
  }

  lemma {:induction false} NatTextRoundTrip(n: nat)
    ensures DigitsValue(NatText(n)) == n
    decreases n
  {
    if n >= 10 {
      NatTextRoundTrip(n / 10);
      var s := NatText(n);
      assert s[..|s| - 1] == NatText(n / 10);
    }
  }

  /** `strip()` leaves a text alone when neither end is white space. */
  lemma StripUnchanged(s: string)
    requires |s| > 0 && !IsSpace(s[0]) && !IsSpace(s[|s| - 1])
    ensures StripRight(StripLeft(s)) == s
  {
    assert StripLeft(s) == s;
  }

  /** `int(str(i)) == i` for every integer. */
  lemma ParseIntRoundTrip(i: int)
    ensures ParseInt(IntText(i)) == Some(i)
  {
    var s := IntText(i);
    assert !IsSpace(s[0]) && !IsSpace(s[|s| - 1]);
    StripUnchanged(s);
    if i < 0 {
      NatTextRoundTrip(-i);
      assert s[1..] == NatText(-i);
    } else {
      NatTextRoundTrip(i);
    }
  }
}

=== FILE: report.dfy ===
/** The `/custom_report` endpoint: the account-name lookup, then the nested
    `func` that loads a stored report query, runs it, renames its columns,
    checks the requesting email against the account's users and exports the
    result as a spreadsheet. */
module Report {
  import opened Base
  import opened PyText
  import opened Sql

  // ---------------------------------------------------------------------
  // Constants
  // ---------------------------------------------------------------------

  /** The placeholder a stored report uses for the account id. */
  const Placeholder: string := ":account_id"

  const QueriesDir: string := "C:/Users/CArrieta/Desktop/gui/queries/"
  const ExcelDir: string := "C:/Users/CArrieta/Desktop/gui/excel/"

  const InvalidReportMsg: string :=
    "That is not a valid Report, please write one of the Reports from the beginning"
  const SomethingWrongMsg: string :=
    "Something went wrong. Please verify if the Account ID is correct. If it doesnt work submit a Customer Support Ticket"
  const BewareMsg: string :=
    "Beware: that email is not used by any Profile on that account"

  const AccountsQuery: string := "select a.\"name\", a.id from accounts a order by a.\"name\""

  const UsersTemplate: Template :=
    [Lit("select us.email, us.firstname, us.lastname from users us where us.account_id = "), Field(0)]

  /** `'{0} {1} Report {2}.xlsx'` under the excel directory: the file written. */
  const WrittenTemplate: Template :=
    [Lit(ExcelDir), Field(0), Lit(" "), Field(1), Lit(" Report "), Field(2), Lit(".xlsx")]

  /** `'{0} Report {1}.xlsx'` under the excel directory: the file served. */
  const ServedTemplate: Template :=
    [Lit(ExcelDir), Field(0), Lit(" Report "), Field(1), Lit(".xlsx")]

  /** `'{0} Report {1}.xlsx'`: the download name offered to the client. */
  const ServedNameTemplate: Template := [Field(0), Lit(" Report "), Field(1), Lit(".xlsx")]

  function ReportPath(report: string): string {
    Fill([Lit(QueriesDir), Field(0)], [report])
  }

  function UsersQuery(account: string): string {
    Fill(UsersTemplate, [account])
  }

  function WrittenPath(accName: string, report: string, today: string): string {
    Fill(WrittenTemplate, [accName, report, today])
  }

  function ServedPath(account: string, today: string): string {
    Fill(ServedTemplate, [account, today])
  }

  function ServedName(account: string, today: string): string {
    Fill(ServedNameTemplate, [account, today])
  }

  /** The users query, spelled out: the account text goes after `=`. */
  lemma UsersQueryShape(account: string)
    ensures UsersQuery(account)
            == "select us.email, us.firstname, us.lastname from users us where us.account_id = " + account
  {
    FillTwo("select us.email, us.firstname, us.lastname from users us where us.account_id = ", 0, [account]);
  }

  /** The file written, spelled out. */
  lemma WrittenPathShape(accName: string, report: string, today: string)
    ensures WrittenPath(accName, report, today)
            == ExcelDir + accName + " " + report + " Report " + today + ".xlsx"
  {
    FillSeven(ExcelDir, " ", " Report ", ".xlsx", [accName, report, today]);
  }

  /** The file served, spelled out. */
  lemma ServedPathShape(account: string, today: string)
    ensures ServedPath(account, today) == ExcelDir + account + " Report " + today + ".xlsx"
  {
    FillFive(ExcelDir, " Report ", ".xlsx", [account, today]);
  }

  /** `p + x + s == p + y + s` exactly when `x == y`. */
  lemma CancelAround(p: string, x: string, y: string, s: string)
    ensures p + x + s == p + y + s <==> x == y
  {
    if p + x + s == p + y + s {
      assert |x| == |y|;
      assert x == (p + x + s)[|p|..|p| + |x|];
      assert y == (p + y + s)[|p|..|p| + |y|];
    }
  }

  /** Regrouping a concatenation of seven texts around its middle. */
  lemma Regroup(d: string, a: string, b: string, c: string, e: string, f: string, g: string)
    ensures d + a + b + c + e + f + g == d + (a + b + c) + (e + f + g)
    ensures d + a + e + f + g == d + a + (e + f + g)
  {
  }

  /** The file served is not the file written: the two paths coincide only
      when the account text happens to equal the account name, a blank and
      the report name. */
  lemma ServedIsWrittenOnlyByCoincidence(accName: string, report: string, account: string, today: string)
    ensures WrittenPath(accName, report, today) == ServedPath(account, today)
            <==> account == accName + " " + report
  {
    WrittenPathShape(accName, report, today);
    ServedPathShape(account, today);
    Regroup(ExcelDir, accName, " ", report, " Report ", today, ".xlsx");
    Regroup(ExcelDir, account, " ", report, " Report ", today, ".xlsx");
    CancelAround(ExcelDir, accName + " " + report, account, " Report " + today + ".xlsx");
  }

  /** The substitution in the stored report: the text is cut at its
      occurrences of `:account_id`, none of the pieces contains it, the pieces
      joined by `:account_id` give back the text, and the SQL is the pieces
      joined by the account. A text without the placeholder is run as is. */
  lemma AccountSubstitution(text: string, account: string)
    ensures Join(Split(text, Placeholder), Placeholder) == text
    ensures forall k :: 0 <= k < |Split(text, Placeholder)| ==> Free(Split(text, Placeholder)[k], Placeholder)
    ensures Replace(text, Placeholder, account) == Join(Split(text, Placeholder), account)
    ensures Free(text, Placeholder) ==> Replace(text, Placeholder, account) == text
  {
    SplitJoinRoundTrip(text, Placeholder);
    SplitPiecesFree(text, Placeholder);
    ReplaceIsSplitJoin(text, Placeholder, account);
    if Free(text, Placeholder) {
      ReplaceFreeUnchanged(text, Placeholder, account);
    }
  }

  // ---------------------------------------------------------------------
  // Column labels and the rename loop
  // ---------------------------------------------------------------------

  /** A column label of the report's DataFrame: the integer position pandas
      gives a column built from bare rows, or a name set by `rename`. */
  datatype Label = Pos(n: nat) | Name(s: string)

  /** `str(label)` */
  function LabelText(l: Label): string {
    match l
    case Pos(n) => NatText(n)
    case Name(s) => s
  }

  /** The header row: `str()` of every label, in column order. */
  function LabelTexts(labels: seq<Label>): (hs: seq<string>)
    ensures |hs| == |labels|
    ensures forall k :: 0 <= k < |labels| ==> hs[k] == LabelText(labels[k])
  {
    seq(|labels|, k requires 0 <= k < |labels| => LabelText(labels[k]))
  }

  /** The number of columns `pd.DataFrame(rows)` has: the longest row's
      length, and none at all when there are no rows. */
  function RowWidth(rows: seq<seq<Value>>): (w: nat)
    ensures forall k :: 0 <= k < |rows| ==> |rows[k]| <= w
    ensures |rows| == 0 ==> w == 0
    ensures |rows| > 0 ==> exists k :: 0 <= k < |rows| && |rows[k]| == w
    decreases |rows|
  {
    if |rows| == 0 then 0
    else
      var rest := RowWidth(rows[1..]);
      if |rows[0]| >= rest then |rows[0]| else rest
  }

  /** The labels of `pd.DataFrame(rows)`: 0, 1, ..., width - 1. */
  function InitialLabels(rows: seq<seq<Value>>): (ls: seq<Label>)
    ensures |ls| == RowWidth(rows)
    ensures forall k :: 0 <= k < |ls| ==> ls[k] == Pos(k)
  {
    seq(RowWidth(rows), k requires 0 <= k => Pos(k))
  }

  /** `df.rename(columns={from: to}, inplace=True)` */
  function RenameOne(labels: seq<Label>, from: Label, to: Label): (r: seq<Label>)
    ensures |r| == |labels|
    ensures forall k :: 0 <= k < |labels| && labels[k] == from ==> r[k] == to
    ensures forall k :: 0 <= k < |labels| && labels[k] != from ==> r[k] == labels[k]
  {
    seq(|labels|, k requires 0 <= k < |labels| => if labels[k] == from then to else labels[k])
  }

  /** The loop `for col in colnames: df.rename(columns={i: col}); i += 1`,
      from iteration `i` on. */
  function RenameFrom(labels: seq<Label>, colnames: seq<string>, i: nat): (r: seq<Label>)
    requires i <= |colnames|
    ensures |r| == |labels|
    decreases |colnames| - i
  {
    if i == |colnames| then labels
    else RenameFrom(RenameOne(labels, Pos(i), Name(colnames[i])), colnames, i + 1)
  }

  /** The labels after the whole loop. */
  function RenameColumns(labels: seq<Label>, colnames: seq<string>): (r: seq<Label>)
    ensures |r| == |labels|
  {
    RenameFrom(labels, colnames, 0)
  }

  lemma {:induction false} RenameFromPositions(labels: seq<Label>, colnames: seq<string>, i: nat)
    requires i <= |colnames|
    requires forall k :: 0 <= k < |labels| ==> labels[k] == if k < i then Name(colnames[k]) else Pos(k)
    ensures forall k :: 0 <= k < |labels| ==>
              RenameFrom(labels, colnames, i)[k] == if k < |colnames| then Name(colnames[k]) else Pos(k)
    decreases |colnames| - i
  {
    if i < |colnames| {
      var next := RenameOne(labels, Pos(i), Name(colnames[i]));
      forall k | 0 <= k < |labels|
        ensures next[k] == if k < i + 1 then Name(colnames[k]) else Pos(k)
      {
      }
      RenameFromPositions(next, colnames, i + 1);
    }
  }

  /** Renaming the positional labels of a frame: column `k` is named
      `colnames[k]` when there is such a name and keeps its position label
      otherwise; the number and order of columns never change. */
  lemma RenameColumnsPositions(rows: seq<seq<Value>>, colnames: seq<string>)
    ensures |RenameColumns(InitialLabels(rows), colnames)| == RowWidth(rows)
    ensures forall k :: 0 <= k < RowWidth(rows) ==>
              RenameColumns(InitialLabels(rows), colnames)[k]
              == if k < |colnames| then Name(colnames[k]) else Pos(k)
  {
    RenameFromPositions(InitialLabels(rows), colnames, 0);
  }

  /** When the rows are as wide as the column-name list (as a cursor's rows
      always are), the labels are exactly the column names, in order. */
  lemma RenameColumnsNamesAll(rows: seq<seq<Value>>, colnames: seq<string>)
    requires |rows| > 0
    requires forall k :: 0 <= k < |rows| ==> |rows[k]| == |colnames|
    ensures |RenameColumns(InitialLabels(rows), colnames)| == |colnames|
    ensures forall k :: 0 <= k < |colnames| ==> RenameColumns(InitialLabels(rows), colnames)[k] == Name(colnames[k])
  {
    RenameColumnsPositions(rows, colnames);
  }

  /** The labels of the report's DataFrame once the rename loop is done. */
  function FrameLabels(result: Frame): seq<Label> {
    RenameColumns(InitialLabels(result.rows), result.header)
  }

  /** Two columns carry the same label; `df[col]` then selects both of them
      as a DataFrame rather than one Series. */
  predicate LabelsRepeat(labels: seq<Label>) {
    exists i, j :: 0 <= i < j < |labels| && labels[i] == labels[j]
  }

  /** Two column names that the frame's columns actually take. */
  predicate NamesRepeat(result: Frame) {
    exists i, j :: 0 <= i < j < RowWidth(result.rows) && j < |result.header| && result.header[i] == result.header[j]
  }

  /** The frame's labels repeat exactly when two of the column names given to
      existing columns are equal: position labels never clash with each
      other or with names. */
  lemma LabelsRepeatIffNamesRepeat(result: Frame)
    ensures LabelsRepeat(FrameLabels(result)) <==> NamesRepeat(result)
  {
    var labels := FrameLabels(result);
    RenameColumnsPositions(result.rows, result.header);
    assert |labels| == RowWidth(result.rows);
    if LabelsRepeat(labels) {
      var i, j :| 0 <= i < j < |labels| && labels[i] == labels[j];
      if j >= |result.header| {
        assert false;
      }
      assert labels[i] == Name(result.header[i]) && labels[j] == Name(result.header[j]);
    }
    if NamesRepeat(result) {
      var i, j :| 0 <= i < j < RowWidth(result.rows) && j < |result.header| && result.header[i] == result.header[j];
      assert labels[i] == labels[j];
    }
  }

  // ---------------------------------------------------------------------
  // Column widths
  // ---------------------------------------------------------------------

  /** `str()` of the cell of `row` in column `k`; a short row's missing cell
      is pandas' NaN. */
  function CellText(row: seq<Value>, k: nat): string {
    if k < |row| then Show(row[k]) else "nan"
  }

  /** `df[col].astype(str)` for the column at position `k`. */
  function ColumnTexts(rows: seq<seq<Value>>, k: nat): (texts: seq<string>)
    ensures |texts| == |rows|
    ensures forall j :: 0 <= j < |rows| ==> texts[j] == CellText(rows[j], k)
  {
    seq(|rows|, j requires 0 <= j < |rows| => CellText(rows[j], k))
  }

  /** `series.map(len).max()` over a non-empty column. */
  function Longest(texts: seq<string>): (n: nat)
    requires |texts| > 0
    ensures forall j :: 0 <= j < |texts| ==> |texts[j]| <= n
    ensures exists j :: 0 <= j < |texts| && |texts[j]| == n
    decreases |texts|
  {
    if |texts| == 1 then |texts[0]|
    else
      var rest := Longest(texts[1..]);
      if |texts[0]| >= rest then |texts[0]| else rest
  }

  /** `max(longest cell, len(header)) + 1`: strictly wider than the header and
      than every cell, and just one wider than the widest of them. */
  function ColumnWidth(texts: seq<string>, header: string): (w: nat)
    requires |texts| > 0
    ensures w > |header|
    ensures forall j :: 0 <= j < |texts| ==> w > |texts[j]|
    ensures w == |header| + 1 || exists j :: 0 <= j < |texts| && w == |texts[j]| + 1
  {
    var longest := Longest(texts);
    (if longest >= |header| then longest else |header|) + 1
  }

  /** The width set for every column, in column order: one more than the
      longer of its header and its widest cell. */
  function ColumnWidths(labels: seq<Label>, rows: seq<seq<Value>>): (ws: seq<nat>)
    requires |labels| == 0 || |rows| > 0
    ensures |ws| == |labels|
    ensures forall k :: 0 <= k < |labels| ==>
              ws[k] > |LabelText(labels[k])|
              && forall j :: 0 <= j < |rows| ==> ws[k] > |CellText(rows[j], k)|
    ensures forall k :: 0 <= k < |labels| ==>
              ws[k] == |LabelText(labels[k])| + 1
              || exists j :: 0 <= j < |rows| && ws[k] == |CellText(rows[j], k)| + 1
  {
    seq(|labels|, k requires 0 <= k < |labels| => ColumnWidth(ColumnTexts(rows, k), LabelText(labels[k])))
  }

  // ---------------------------------------------------------------------
  // The export
  // ---------------------------------------------------------------------

  /** The workbook the endpoint writes: file path, sheet name, header row,
      data rows (the index is not written) and the width of every column. */
  datatype Workbook = Workbook(
    path: string,
    sheetName: string,
    header: seq<string>,
    rows: seq<seq<Value>>,
    widths: seq<nat>)

  /** The report's DataFrame after the rename loop, as the spreadsheet that
      `df.to_excel(writer, sheet_name=Report, index=False)` and the width
      loop produce. */
  function ExportOf(accName: Value, report: string, today: string, result: Frame): (wb: Workbook)
    ensures wb.path == ExcelDir + Show(accName) + " " + report + " Report " + today + ".xlsx"
    ensures |wb.header| == |wb.widths| == RowWidth(result.rows)
    ensures forall k :: 0 <= k < |wb.header| ==>
              wb.header[k] == if k < |result.header| then result.header[k] else NatText(k)
    ensures wb.rows == result.rows && wb.sheetName == report
    ensures forall k :: 0 <= k < |wb.widths| ==>
              wb.widths[k] > |wb.header[k]|
              && forall j :: 0 <= j < |wb.rows| ==> wb.widths[k] > |CellText(wb.rows[j], k)|
    ensures forall k :: 0 <= k < |wb.widths| ==>
              wb.widths[k] == |wb.header[k]| + 1
              || exists j :: 0 <= j < |wb.rows| && wb.widths[k] == |CellText(wb.rows[j], k)| + 1
  {
    var labels := FrameLabels(result);
    SheetHeader(result);
    WrittenPathShape(Show(accName), report, today);
    Workbook(
      WrittenPath(Show(accName), report, today),
      report,
      LabelTexts(labels),
      result.rows,
      ColumnWidths(labels, result.rows))
  }

  /** The sheet's header row: column `k` shows its name when the cursor gave
      one, and its position otherwise. */
  lemma SheetHeader(result: Frame)
    ensures |LabelTexts(FrameLabels(result))| == RowWidth(result.rows)
    ensures forall k :: 0 <= k < RowWidth(result.rows) ==>
              LabelTexts(FrameLabels(result))[k] == if k < |result.header| then result.header[k] else NatText(k)
  {
    RenameColumnsPositions(result.rows, result.header);
  }

  /** For a cursor's result (every row as wide as the column-name list, at
      least one row) the header row of the sheet is the column names. */
  lemma ExportHeaderIsColumnNames(accName: Value, report: string, today: string, result: Frame)
    requires |result.rows| > 0
    requires forall k :: 0 <= k < |result.rows| ==> |result.rows[k]| == |result.header|
    ensures ExportOf(accName, report, today, result).header == result.header
  {
    RenameColumnsNamesAll(result.rows, result.header);
  }

  // ---------------------------------------------------------------------
  // func()
  // ---------------------------------------------------------------------

  /** What the endpoint hands back to the client. */
  datatype Response = FileReply(path: string, filename: string) | Message(text: string)

  /** The response, and the workbook whose writing was attempted, if any. */
  datatype Effect = Effect(reply: Response, written: Option<Workbook>)

  /** The collaborators: the SQL engine, the query files on disk (path to
      contents) and whether writing a given workbook to disk succeeds. */
  datatype Env = Env(
    engine: Engine,
    files: string -> Option<string>,
    exportOk: Workbook -> bool)

  /** The SQL text of the stored report with the account substituted, or
      `None` when the file cannot be read. */
  function ReportSql(env: Env, account: string, report: string): (r: Option<string>)
    ensures r.None? <==> env.files(ReportPath(report)).None?
    ensures r.Some? ==> r.value == Join(Split(env.files(ReportPath(report)).value, Placeholder), account)
  {
    match env.files(ReportPath(report))
    case None => None
    case Some(text) =>
      AccountSubstitution(text, account);
      Some(Replace(text, Placeholder, account))
  }

  /** Loading or running the report fails. */
  predicate ReportFails(env: Env, account: string, report: string) {
    ReportSql(env, account, report).None? || env.engine(ReportSql(env, account, report).value).Raised?
  }

  /** Some user row of the account carries exactly this email in its first
      field (`Email in admin_emails.index`). */
  predicate EmailListed(users: seq<seq<Value>>, email: string) {
    exists k :: 0 <= k < |users| && Cell(users[k], 0) == Str(email)
  }

  /** The users query succeeds and lists the email. */
  predicate Authorised(env: Env, account: string, email: string) {
    && env.engine(UsersQuery(account)).Fetched?
    && EmailListed(env.engine(UsersQuery(account)).frame.rows, email)
  }

  /** The nested function `func`: exactly one response, chosen as follows.
      Reading or running the report fails: the invalid-report message. The
      users query fails, returns no rows (`set_index(0)` then has no column 0),
      the export fails, or two columns of the report carry the same label
      (the width loop then gets a DataFrame for `df[col]` and raises): the
      something-went-wrong message. The email is not listed: the warning, and
      nothing is written. Otherwise the file. */
  function Func(env: Env, account: string, accName: Value, report: string, email: string, today: string): (r: Effect)
    ensures r.reply.FileReply? || r.reply == Message(InvalidReportMsg)
            || r.reply == Message(SomethingWrongMsg) || r.reply == Message(BewareMsg)
    ensures r.reply == Message(InvalidReportMsg) <==> ReportFails(env, account, report)
    ensures r.written.Some? ==> !ReportFails(env, account, report) && Authorised(env, account, email)
    ensures r.written.Some? ==>
              r.written.value == ExportOf(accName, report, today, env.engine(ReportSql(env, account, report).value).frame)
    ensures r.reply == Message(BewareMsg) <==>
              && !ReportFails(env, account, report)
              && env.engine(UsersQuery(account)).Fetched?
              && |env.engine(UsersQuery(account)).frame.rows| > 0
              && !Authorised(env, account, email)
    ensures r.reply == Message(BewareMsg) ==> r.written.None?
    ensures r.reply == Message(SomethingWrongMsg) <==>
              && !ReportFails(env, account, report)
              && (|| env.engine(UsersQuery(account)).Raised?
                  || |env.engine(UsersQuery(account)).frame.rows| == 0
                  || (&& Authorised(env, account, email)
                      && (|| LabelsRepeat(FrameLabels(env.engine(ReportSql(env, account, report).value).frame))
                          || !env.exportOk(ExportOf(accName, report, today,
                                                    env.engine(ReportSql(env, account, report).value).frame)))))
    ensures r.reply.FileReply? <==>
              && r.written.Some?
              && env.exportOk(r.written.value)
              && !LabelsRepeat(FrameLabels(env.engine(ReportSql(env, account, report).value).frame))
    ensures r.reply.FileReply? ==> r.reply == FileReply(ServedPath(account, today), ServedName(account, today))
  {
    match ReportSql(env, account, report)
    case None => Effect(Message(InvalidReportMsg), None)
    case Some(sql) =>
      match env.engine(sql)
      case Raised => Effect(Message(InvalidReportMsg), None)
      case Fetched(result) =>
        match env.engine(UsersQuery(account))
        case Raised => Effect(Message(SomethingWrongMsg), None)
        case Fetched(users) =>
          if |users.rows| == 0 then Effect(Message(SomethingWrongMsg), None)
          else if !EmailListed(users.rows, email) then Effect(Message(BewareMsg), None)
          else
            var wb := ExportOf(accName, report, today, result);
            if LabelsRepeat(FrameLabels(result)) || !env.exportOk(wb) then Effect(Message(SomethingWrongMsg), Some(wb))
            else Effect(FileReply(ServedPath(account, today), ServedName(account, today)), Some(wb))
  }

  // ---------------------------------------------------------------------
  // The endpoint
  // ---------------------------------------------------------------------

  /** The exceptions that escape the endpoint (an HTTP 500, not a message). */
  datatype Fault =
    | AccountsQueryFailed  // the accounts query raises
    | NoAccountRows        // `accounts[1]` on a frame built from no rows: KeyError
    | BadAccountId         // `int(Account)`: ValueError
    | UnknownAccount       // no row has that id: `.iloc[0]` raises IndexError

  /** The name field of the first row whose id field equals `id`. */
  function FirstNamed(rows: seq<seq<Value>>, id: int): (r: Option<Value>)
    ensures r.Some? <==> exists k :: 0 <= k < |rows| && Cell(rows[k], 1) == Int(id)
    ensures r.Some? ==> exists k :: 0 <= k < |rows| && Cell(rows[k], 1) == Int(id) && r.value == Cell(rows[k], 0)
                                    && forall j :: 0 <= j < k ==> Cell(rows[j], 1) != Int(id)
    decreases |rows|
  {
    if |rows| == 0 then None
    else if Cell(rows[0], 1) == Int(id) then Some(Cell(rows[0], 0))
    else
      var rest := FirstNamed(rows[1..], id);
      if rest.Some? then
        ghost var k :| 0 <= k < |rows[1..]| && Cell(rows[1..][k], 1) == Int(id) && rest.value == Cell(rows[1..][k], 0)
                       && forall j :: 0 <= j < k ==> Cell(rows[1..][j], 1) != Int(id);
        assert Cell(rows[k + 1], 1) == Int(id);
        rest
      else rest
  }

  /** `accounts[accounts[1] == int(Account)][0].iloc[0]` */
  function AccountName(rows: seq<seq<Value>>, account: string): (r: Result<Value, Fault>)
    ensures r.Ok? <==> |rows| > 0 && ParseInt(account).Some? && FirstNamed(rows, ParseInt(account).value).Some?
    ensures r.Ok? ==> exists k :: 0 <= k < |rows| && Cell(rows[k], 1) == Int(ParseInt(account).value)
                                  && r.value == Cell(rows[k], 0)
                                  && forall j :: 0 <= j < k ==> Cell(rows[j], 1) != Int(ParseInt(account).value)
    ensures r.Ok? ==> r.value == FirstNamed(rows, ParseInt(account).value).value
  {
    if |rows| == 0 then Err(NoAccountRows)
    else
      match ParseInt(account)
      case None => Err(BadAccountId)
      case Some(id) =>
        match FirstNamed(rows, id)
        case None => Err(UnknownAccount)
        case Some(name) => Ok(name)
  }

  /** `custom_report(Account, Report, Email)` once the tunnel and connection
      are up; `today` is `date.today()` as text. The account lookup runs
      outside `func`'s handlers, so its failures are not turned into a
      message. */
  function CustomReport(env: Env, account: string, report: string, email: string, today: string): (r: Result<Effect, Fault>)
    ensures r.Err? <==> env.engine(AccountsQuery).Raised? || AccountName(env.engine(AccountsQuery).frame.rows, account).Err?
    ensures env.engine(AccountsQuery).Fetched? && AccountName(env.engine(AccountsQuery).frame.rows, account).Err? ==>
              r == Err(AccountName(env.engine(AccountsQuery).frame.rows, account).error)
    ensures r.Ok? ==>
              r.value == Func(env, account, AccountName(env.engine(AccountsQuery).frame.rows, account).value, report, email, today)
  {
    match env.engine(AccountsQuery)
    case Raised => Err(AccountsQueryFailed)
    case Fetched(accounts) =>
      match AccountName(accounts.rows, account)
      case Err(e) => Err(e)
      case Ok(name) => Ok(Func(env, account, name, report, email, today))
  }
}

=== FILE: sql.dfy ===
/** The SQL engine as database_object.py and fastapi_report_building.py
    see it: a function from query text
    to either a fetched result set or a raised exception. Connections,
    cursors and `pd.read_sql` are all this one oracle. */
module Sql {
  import opened PyText

  /** A cell of a result set, as the Python driver hands it over. */
  datatype Value =
    | Int(i: int)          // a Python int
    | Str(s: string)       // a Python str
    | Null                 // None
    | Other(text: string)  // any other value (float, Decimal, date, ...), kept as its str()

  /** Python's `str(v)`. */
  function Show(v: Value): string {
    match v
    case Int(i) => IntText(i)
    case Str(s) => s
    case Null => "None"
    case Other(text) => text
  }

  /** Field `k` of a row; a missing field reads as NULL. */
  function Cell(row: seq<Value>, k: nat): Value {
    if k < |row| then row[k] else Null
  }

  /** A result set: the column names of `cursor.description` and the rows of
      `fetchall()`. */
  datatype Frame = Frame(header: seq<string>, rows: seq<seq<Value>>)

  /** What executing one query text gives. */
  datatype Outcome = Fetched(frame: Frame) | Raised

  /** The engine: deterministic for the duration of one call into the model. */
  type Engine = string -> Outcome
}
